=== FILE: README.md ===
# Lightning formation demo: a Dafny model of its logic

The repository is a React slideshow in five steps that shows how lightning
forms inside a storm cloud. It can also read each step aloud through a
remote speech service. This project models the parts of it that are pure
logic, with every `Math.random()` draw passed in as a parameter in [0, 1)
and JavaScript numbers taken as mathematical reals or integers:

- **Step navigation** (`Navigation`, navigation.dfy). The "next" and
  "previous" buttons clamp the step index to the five steps.
- **Audio decoding** (`Pcm`, pcm.dfy). `decodeBase64` copies the
  characters of the `atob` output into bytes. `decodeAudioData` reads
  those bytes as interleaved 16-bit little-endian samples, splits them by
  channel and scales each by 1/32768. The exceptions raised by the platform
  objects are modelled as `Failure` values: an `Int16Array` over an odd
  number of bytes throws a RangeError, and `createBuffer` throws a
  NotSupportedError for zero channels or zero frames.
- **The narration flag** (`Narration`, narration.dfy). `isSpeaking` is a
  state machine (`SpeakingState`) with three states: `Idle`, `Requesting` and `Playing`.
  The service reply, the `atob` result and the end of playback are inputs
  to it.
- **Paragraph splitting** (`Paragraphs`, paragraphs.dfy). The long
  description is split on ". " and each piece is rendered with a closing
  full stop.
- **Strike selection** (`Strike`, strike.dfy). This covers the weighted
  category draw, the label table and the random internal path. It also
  covers the timer-driven state of the stage (interval tick, flash timeout,
  step change) and the step-to-phase mapping handed to the particles.
- **Particle motion** (`Particles`, particles.dfy). This is the
  per-particle frame update, which depends on the phase, plus the initial
  population of 45 particles.
- **Bolt paths** (`Bolt`, bolt.dfy). A bolt is a polyline from start to
  end whose interior points are jittered. It is modelled as a sequence of
  points.

`Results` (results.dfy) holds `Option`/`Result`. `Randomness`
(random.dfy) defines the range of one random draw.

## Behaviour worth noting

- An odd byte count makes decoding fail. The `Int16Array` constructor
  throws a RangeError, and the narration handler catches the exception.
  Only a sample count that is not a multiple of the channel count is
  truncated: `createBuffer` truncates the fractional length, and writes
  past the end of a typed array are ignored.
- The jitter offset `(r - 0.5) * amplitude` lies in
  [-amplitude/2, amplitude/2). It never reaches +amplitude/2.
- A bolt with fewer than two segments is the two-point path [start, end].
  The loop does not run, and the step size is never used.
- The particle phase is `max(0, step - 1)`. So the early "bounce" rules
  apply on steps 0, 1 and 2. The rising bias applies on step 2 only, not
  on step 1 (where the updraft arrows are drawn). Charge separation
  applies on steps 3 and 4.
- The flash timeout clears only the strike, not its label. The label stays
  until the next strike or until the step moves away from the last one.

## Model

| member | source | states |
|---|---|---|
| Navigation.NextStep | App.tsx:42 | never passes the last step (4); moves one step forward from any earlier step and stays at 4 from step 4 onwards |
| Navigation.PrevStep | App.tsx:43 | never goes below 0; moves one step back from any later step and stays at 0 from step 0 and below |
| Navigation.NextIdempotentAtLast | App.tsx:42 | "next" on the last step is a fixed point |
| Navigation.PrevAfterNext | App.tsx:42-43 | from steps 0..3, previous after next returns to the same step |
| Navigation.NextAfterPrev | App.tsx:42-43 | from steps 1..4, next after previous returns to the same step |
| Navigation.NavigateStaysValid | App.tsx:39-43 | any sequence of button presses from a valid step ends on a valid step (0..4), within one step per press of the start |
| Pcm.DecodeBase64Bytes | App.tsx:8-16 | the copy loop yields one byte per character, in order, each the character code modulo 256 |
| Pcm.CopyBytesRoundTrip | App.tsx:9-14 | on a binary string (all codes below 256) the copy is lossless in both directions: bytes map back to the same string, and any bytes survive a trip through their binary string |
| Pcm.DecodeEncodeSamples | App.tsx:25 | reading the Int16 view of a little-endian encoding gives back every sample, and the count of samples |
| Pcm.Decode | App.tsx:19-36 | fails with RangeError exactly for an odd byte count and with NotSupportedError exactly for no channels or no whole frame; otherwise gives numChannels channels of (len/2)/numChannels frames, frame i of channel c being int16 sample i*numChannels+c over 32768, every sample in [-1, 32767/32768] |
| Pcm.DecodeAudioData | App.tsx:25-35 | the nested channel/frame loops compute exactly the decode above |
| Pcm.DecodeExample | App.tsx:25-32 | mono bytes 00 40 00 C0 decode to the samples 0.5 and -0.5 |
| Pcm.DecodeEncodeRoundTrip | App.tsx:25-33 | interleaving equally long int16 channels, encoding them little-endian and decoding with the channel count returns every channel scaled by 1/32768 |
| Pcm.QuantizedRoundTrip | App.tsx:32 | a float signal in [-1, 1] quantized to 16 bits, encoded and decoded mono comes back within 1/32768 of each original sample, never above it |
| Narration.ReplyAudio | App.tsx:67-71 | a reply carries no audio on a transport failure, a missing or empty payload or an `atob` failure; any audio it does carry is a 24000 Hz mono buffer with samples in [-1, 32767/32768] |
| Narration.Resolve | App.tsx:67-84 | after the awaited call the flag is cleared on a transport failure, a missing or empty payload, an atob failure or a decode failure; playback starts exactly when a non-empty payload passes `atob` and decoding at 24000 Hz mono, and then plays that decoded buffer |
| Narration.Step | App.tsx:45-85 | a press from idle enters the requesting state and changes nothing while the flag is already raised; a reply to a pending request is resolved as `Resolve` states, and a reply with no request pending changes nothing; the end of playback stops it; only a press can start a request |
| Narration.SingleFlight | App.tsx:46-47 | on every event sequence from idle, at most one request is outstanding: requests sent equal replies handled, plus one exactly while waiting |
| Narration.AnswerThenEndIsIdle | App.tsx:76-83 | whatever the reply, once it is handled and any playback it started has ended, the flag is down |
| Narration.OnlyValidAudioPlays | App.tsx:67-77 | on every event sequence, anything being played is a 24000 Hz mono buffer with samples in [-1, 1) |
| Paragraphs.Split | App.tsx:176 | `text.split('. ')` gives at least one piece, the pieces joined with ". " give the text back, and no piece contains ". " |
| Paragraphs.SplitCountAndJoin | App.tsx:176 | splitting on ". " gives one more piece than there are separator positions, and joining the pieces with ". " gives back the text |
| Paragraphs.SplitPiecesClean | App.tsx:176 | no piece of the split contains the separator |
| Paragraphs.Render | App.tsx:177 | a rendered paragraph ends with '.', starts with the sentence, is at most one character longer, and equals the sentence when that already ends with '.' |
| Paragraphs.RenderedParagraphs | App.tsx:176-177 | a long description renders as (separators + 1) paragraphs, each ending with '.' and extending its piece by at most one character, and equal to its piece exactly when the piece already ends with '.' |
| Paragraphs.SplitExample | App.tsx:176 | "A. B." splits into "A" and "B." |
| Paragraphs.RenderExample | App.tsx:176-177 | "A. B." renders as "A." and "B." |
| Strike.TableIndex | components/AnimationStage.tsx:27 | floor(r*5) is a valid index into the five-entry table, and it is the integer part of r*5 |
| Strike.SelectStrike | components/AnimationStage.tsx:26-27 | internal exactly for r < 0.4, air for [0.4, 0.6), tree for [0.6, 0.8), house for [0.8, 1): internal has twice the weight of each other category |
| Strike.Label | components/AnimationStage.tsx:29-34 | every category has a non-empty label |
| Strike.LabelsDistinct | components/AnimationStage.tsx:29-34 | two categories share a label only if they are the same category |
| Strike.DrawPath | components/AnimationStage.tsx:40-45 | a new internal path has x in [250, 550), start y in [230, 280), end y in [120, 200), so it always rises; each coordinate is the affine image of its own draw, which it gives back |
| Strike.InitialPathInCloud | components/AnimationStage.tsx:23 | the initial internal path satisfies the same bounds |
| Strike.Trigger | components/AnimationStage.tsx:25-50 | a trigger shows the selected category and its label; it draws a new path only for an internal strike and otherwise keeps the old one; the step is untouched |
| Strike.Step | components/AnimationStage.tsx:51-67 | the flash timeout clears the strike and keeps the label; moving to any step other than the last clears the strike and the label; a tick off the last step changes nothing and a tick on it is `Trigger`; a step change to the same or the last step keeps the strike and the label; ticks and timeouts keep the step; the path changes only on a tick, and only to a drawn path |
| Strike.StepPreservesConsistent | components/AnimationStage.tsx:36-67 | every event keeps the stage consistent: a strike or a label only on the last step, a strike always shown with its own label, and the internal path inside the cloud and rising |
| Strike.RunConsistent | components/AnimationStage.tsx:56-67 | consistency holds after any sequence of step changes, ticks and flash timeouts |
| Strike.Mount | components/AnimationStage.tsx:21-23 | on mounting no strike and no label are shown, the step is the prop, and the initial internal path lies inside the cloud |
| Strike.MountConsistent | components/AnimationStage.tsx:21-23 | the state after mounting is consistent, on any step |
| Strike.TriggerThenFlashOver | components/AnimationStage.tsx:48-53 | a trigger on the last step, followed by its timeout, leaves no strike shown for every category, while the label stays |
| Strike.ParticlePhase | components/AnimationStage.tsx:148 | the phase is 0 for step 0 and step - 1 for every positive step |
| Strike.PhaseOfSteps | components/AnimationStage.tsx:148 | on steps 0..4 the phase is max(0, step-1) and lies in 0..3; it is 1 (rising) exactly on step 2 and 2 or more (charge separation) exactly on steps 3 and 4 |
| Particles.Update | components/ParticleSystem.tsx:28-50 | id, charge and kind are kept; the new position is old position + old velocity + new velocity; in phase <= 1, vx is negated when x+vx leaves [200, 600] and kept otherwise, and vy the same way for [100, 300], minus 0.05 in phase 1; in phase >= 2, vy becomes 0.95(vy + 0.01(target - (y+vy))) with target 140 (positive) or 260 (negative), and vx becomes ±0.95 vx, negated exactly when x+vx leaves [220, 580] |
| Particles.Frame | components/ParticleSystem.tsx:29-50 | a frame keeps the number, order, ids, charges and kinds of the particles |
| Particles.FrameIsPointwise | components/ParticleSystem.tsx:29 | particles do not interact: the frame of a concatenation is the concatenation of the frames |
| Particles.BounceReturns | components/ParticleSystem.tsx:30-35 | in the early phases a horizontal bounce leaves x where it was and reverses the direction of motion (for example at x = 601 moving right) |
| Particles.EarlySpeedKept | components/ParticleSystem.tsx:34-38 | early phases keep the horizontal speed; phase 0 keeps the vertical speed too |
| Particles.UpdateKeepsNearBox | components/ParticleSystem.tsx:30-38 | in the early phases a particle within its own horizontal speed of [200, 600] stays so; in phase 0 also vertically, for [100, 300] |
| Particles.FramesKeepNearBox | components/ParticleSystem.tsx:28-51 | the same bound holds for every particle over any number of early-phase frames |
| Particles.LateDamping | components/ParticleSystem.tsx:43-46 | from phase 2 on, horizontal speed shrinks by 5% per frame, and the direction flips when x+vx leaves [220, 580] |
| Particles.PullFromRest | components/ParticleSystem.tsx:41-44 | from phase 2 on, a particle with no vertical velocity moves strictly toward its charge's target height without overshooting it, and its new vertical velocity points at the target |
| Particles.RestingIsFixed | components/ParticleSystem.tsx:40-49 | a particle at rest at its target height and inside the band is unchanged by a frame |
| Particles.EnergyBoundsOffset | components/ParticleSystem.tsx:41-44 | the vertical energy 19e² + 100e·vy + 3881vy², with e the offset from the charge's target height, is at least 18e², so it bounds the squared offset |
| Particles.EnergyDecays | components/ParticleSystem.tsx:40-49 | from phase 2 on, one frame multiplies a particle's vertical energy by exactly 0.95 |
| Particles.Evolve | components/ParticleSystem.tsx:29-49 | following one particle over n frames keeps its id, charge and kind |
| Particles.FramesAreTracks | components/ParticleSystem.tsx:28-50 | n frames of the population move every particle along its own track, independently of the others |
| Particles.TrackDecays | components/ParticleSystem.tsx:40-49 | after n late-phase frames a particle's vertical energy is 0.95^n times its starting energy |
| Particles.TrackSettles | components/ParticleSystem.tsx:40-49 | after n late-phase frames 18 times the squared distance to the charge's target height is at most 0.95^n times the starting energy, so positive particles converge to y = 140 and negative ones to y = 260 |
| Particles.InitialParticle | components/ParticleSystem.tsx:17-21 | an initial particle has x in [200, 600), y in [100, 300) and both velocity components in [-1, 1); each of the four is the affine image of its own draw (x = 400d + 200, y = 200d + 100, v = 2(d - 0.5)), which it gives back |
| Particles.InitialParticles | components/ParticleSystem.tsx:16-24 | 45 particles with id = index, positive exactly at even indices, ice exactly when positive, positions and velocities in the ranges above, particle i built from draws[i], whose four values it gives back |
| Particles.PositiveCount | components/ParticleSystem.tsx:22 | 23 of the 45 initial particles are positive |
| Particles.InitialNearBox | components/ParticleSystem.tsx:18-21 | the initial population meets the early-phase bound in both axes |
| Bolt.Bolt | components/LightningBolt.tsx:14-27 | the path has segments + 1 points (two for segments <= 1); the first point is exactly the start and the last exactly the end |
| Bolt.OffsetBound | components/LightningBolt.tsx:20-21 | a jitter offset lies in [-amplitude/2, amplitude/2), and is 0 for amplitude 0 |
| Bolt.OffsetRecoversDraw | components/LightningBolt.tsx:20-21 | for a positive amplitude the offset determines its draw: offset/amplitude + 0.5 is the draw |
| Bolt.OffsetCoversRange | components/LightningBolt.tsx:20-21 | for a positive amplitude every value in [-amplitude/2, amplitude/2) is the offset of some draw in [0, 1), so the jitter spans the whole range |
| Bolt.InteriorNearLine | components/LightningBolt.tsx:16-21 | each interior point i deviates from start + i(end-start)/segments by exactly the offsets of its own two draws (x first, then y), and so lies within [-amplitude/2, amplitude/2) of it in each axis |
| Bolt.LerpEnds | components/LightningBolt.tsx:16-17 | the straight line is at the start after 0 segments and at the end after all of them |
| Bolt.CalmBoltIsStraight | components/LightningBolt.tsx:16-22 | with amplitude 0 every point, the endpoints included, is i/segments of the way from start to end |
| Bolt.OneSegmentIsStraight | components/LightningBolt.tsx:19-25 | with one segment or fewer the path is just [start, end] |
| Bolt.BuildBolt | components/LightningBolt.tsx:15-26 | the loop that appends one point per `L` command builds exactly the path above |

## Left out

- Page layout, styling, SVG drawing and the legend are presentation only. This includes the fixed bolt endpoints per strike category and the `isStriking` prop, which the particle system receives but never reads.
- The call to the remote speech service and the prompt it is sent are a foreign call. Only its outcome is modelled, as the `Reply` input.
- `atob` is a foreign call. It is a function parameter of the narration model that returns `None` where it would throw. Only the byte copy after it is modelled.
- `AudioContext` creation, `createBufferSource`, `start` and the audio device are browser APIs. Their end is the `PlaybackEnded` event.
- `requestAnimationFrame`, `setInterval`, `setTimeout` and their delays (2500 ms, 150 ms) are event-loop scheduling. Their firings are events.
- Pcm.Decode: does not model the implementation-defined upper limit on channels (at least 32) or the permitted sample-rate range of `createBuffer`. The app always passes 1 channel at 24000 Hz.
- Pcm.Decode: assumes a little-endian platform for the `Int16Array` view, as all current browsers are.
- Narration.Step: ignores a reply that arrives when no request is pending, and a request that is still in flight when the component unmounts. Single flight makes the first impossible; the second has no effect the page can observe.
- Particles.Update: does not model that the source negates `vx`/`vy` on the previous frame's objects before copying them. The next frame sees the same values. React's development-mode double call of state updaters is also not modelled.
- Particles.TrackSettles: bounds the vertical offset only. The horizontal motion in the late phases is damped (`LateDamping`), but no bound on x over many frames is proved.
- Bolt.InteriorNearLine: requires a non-negative amplitude, as every caller passes (40, 40, 25 and 50; the default is 20). Fractional `segments` values are not modelled.
- IEEE-754 rounding: arithmetic is over the reals, so bounds such as [250, 550) hold exactly in the model.
- The text of the steps is static configuration. Only their number (5) and PARTICLE_COUNT (45) are used.

=== FILE: bolt.dfy ===
/**
 * The path builder of components/LightningBolt.tsx: a polyline from the
 * start point to the end point through `segments - 1` interior points, each
 * placed on the straight line and displaced by a random offset in each
 * axis. The SVG path string it is written into is not modelled; the points
 * are.
 */
module Bolt {
  import opened Randomness

  datatype Point = Point(x: real, y: real)

  /** The two draws (x offset first, then y) taken for one interior point. */
  datatype Jitter = Jitter(u: real, v: real)

  predicate ValidJitter(j: seq<Jitter>) {
    forall k :: 0 <= k < |j| ==> IsDraw(j[k].u) && IsDraw(j[k].v)
  }

  /** Number of interior points: the loop runs for i = 1 .. segments - 1. */
  function InteriorCount(segments: int): nat {
    if segments > 1 then segments - 1 else 0
  }

  /** The point `i` segments along the straight line. */
  function Lerp(start: Point, end: Point, segments: int, i: int): Point
    requires segments >= 1
  {
    var dx := (end.x - start.x) / segments as real;
    var dy := (end.y - start.y) / segments as real;
    Point(start.x + dx * i as real, start.y + dy * i as real)
  }

  /** `(Math.random() - 0.5) * amplitude`. */
  function Offset(u: real, amplitude: real): real {
    (u - 0.5) * amplitude
  }

  /** An offset in [-amplitude/2, amplitude/2), or exactly 0 for amplitude 0. */
  predicate WithinJitter(d: real, amplitude: real) {
    -amplitude / 2.0 <= d <= amplitude / 2.0 && (amplitude > 0.0 ==> d < amplitude / 2.0)
  }

  lemma OffsetBound(u: real, amplitude: real)
    requires IsDraw(u) && amplitude >= 0.0
    ensures WithinJitter(Offset(u, amplitude), amplitude)
  {
    assert (u - 0.5) * amplitude + 0.5 * amplitude == u * amplitude;
    assert 0.0 <= u * amplitude <= amplitude;
    if amplitude > 0.0 {
      assert u * amplitude < 1.0 * amplitude;
    }
  }

  /** A non-zero amplitude lets the offset give back the draw it was made from. */
  lemma OffsetRecoversDraw(u: real, amplitude: real)
    requires amplitude > 0.0
    ensures Offset(u, amplitude) / amplitude + 0.5 == u
  {
    DivideBack(Offset(u, amplitude), u - 0.5, amplitude);
  }

  lemma DivideBack(x: real, a: real, k: real)
    requires k > 0.0 && x == a * k
    ensures x / k == a
  {
  }

  /** Every offset in [-amplitude/2, amplitude/2) is produced by exactly one draw. */
  lemma OffsetCoversRange(d: real, amplitude: real)
    requires amplitude > 0.0 && -amplitude / 2.0 <= d < amplitude / 2.0
    ensures IsDraw(d / amplitude + 0.5) && Offset(d / amplitude + 0.5, amplitude) == d
  {
  }

  /** Interior point `i` (1 <= i < segments), jittered by the draws `j`. */
  function InteriorPoint(start: Point, end: Point, segments: int, amplitude: real, j: Jitter, i: int): Point
    requires segments >= 1
  {
    var line := Lerp(start, end, segments, i);
    Point(line.x + Offset(j.u, amplitude), line.y + Offset(j.v, amplitude))
  }

  /**
   * The points of the bolt: start, the interior points in order, end. With
   * fewer than two segments the loop does not run and the path is a single
   * straight stroke.
   */
  function Bolt(start: Point, end: Point, segments: int, amplitude: real, jitter: seq<Jitter>): (path: seq<Point>)
    requires |jitter| == InteriorCount(segments)
    ensures |path| == InteriorCount(segments) + 2
    ensures segments >= 1 ==> |path| == segments + 1
    ensures path[0] == start && path[|path| - 1] == end
  {
    [start]
    + seq(InteriorCount(segments), k requires 0 <= k < InteriorCount(segments) =>
        InteriorPoint(start, end, segments, amplitude, jitter[k], k + 1))
    + [end]
  }

  /**
   * Every interior point lies within half the amplitude of its place on the
   * straight line, in each axis (amplitude is a non-negative prop).
   */
  lemma InteriorNearLine(start: Point, end: Point, segments: int, amplitude: real, jitter: seq<Jitter>)
    requires |jitter| == InteriorCount(segments) && ValidJitter(jitter) && amplitude >= 0.0
    ensures var path := Bolt(start, end, segments, amplitude, jitter);
      forall i :: 1 <= i < |path| - 1 ==>
        && path[i].x - Lerp(start, end, segments, i).x == Offset(jitter[i - 1].u, amplitude)
        && path[i].y - Lerp(start, end, segments, i).y == Offset(jitter[i - 1].v, amplitude)
        && WithinJitter(path[i].x - Lerp(start, end, segments, i).x, amplitude)
        && WithinJitter(path[i].y - Lerp(start, end, segments, i).y, amplitude)
  {
    var path := Bolt(start, end, segments, amplitude, jitter);
    forall i | 1 <= i < |path| - 1
      ensures path[i].x - Lerp(start, end, segments, i).x == Offset(jitter[i - 1].u, amplitude)
      ensures path[i].y - Lerp(start, end, segments, i).y == Offset(jitter[i - 1].v, amplitude)
      ensures WithinJitter(path[i].x - Lerp(start, end, segments, i).x, amplitude)
      ensures WithinJitter(path[i].y - Lerp(start, end, segments, i).y, amplitude)
    {
      assert path[i] == InteriorPoint(start, end, segments, amplitude, jitter[i - 1], i);
      OffsetBound(jitter[i - 1].u, amplitude);
      OffsetBound(jitter[i - 1].v, amplitude);
    }
  }

  /** The straight line reaches the end point after all segments. */
  lemma LerpEnds(start: Point, end: Point, segments: int)
    requires segments >= 1
    ensures Lerp(start, end, segments, 0) == start
    ensures Lerp(start, end, segments, segments) == end
  {
    var n := segments as real;
    assert (end.x - start.x) / n * n == end.x - start.x;
    assert (end.y - start.y) / n * n == end.y - start.y;
  }

  /**
   * With amplitude 0 every point lies on the line from start to end, evenly
   * spaced: point `i` is `i/segments` of the way along.
   */
  lemma CalmBoltIsStraight(start: Point, end: Point, segments: int, jitter: seq<Jitter>)
    requires segments >= 1 && |jitter| == InteriorCount(segments)
    ensures var path := Bolt(start, end, segments, 0.0, jitter);
      forall i :: 0 <= i < |path| ==> path[i] == Lerp(start, end, segments, i)
  {
    LerpEnds(start, end, segments);
    var path := Bolt(start, end, segments, 0.0, jitter);
    forall i | 0 <= i < |path|
      ensures path[i] == Lerp(start, end, segments, i)
    {
      if 0 < i < |path| - 1 {
        assert path[i] == InteriorPoint(start, end, segments, 0.0, jitter[i - 1], i);
      }
    }
  }

  /** One segment (or fewer) gives just the start and the end. */
  lemma OneSegmentIsStraight(start: Point, end: Point, segments: int, amplitude: real)
    requires segments <= 1
    ensures Bolt(start, end, segments, amplitude, []) == [start, end]
  {
  }

  /** The loop of the `useMemo` callback, appending one point per `L` command. */
  method BuildBolt(start: Point, end: Point, segments: int, amplitude: real, jitter: seq<Jitter>)
    returns (path: seq<Point>)
    requires |jitter| == InteriorCount(segments)
    ensures path == Bolt(start, end, segments, amplitude, jitter)
  {
    path := [start];
    var i := 1;
    while i < segments
      invariant 1 <= i && (i == 1 || i <= segments)
      invariant path == [start] + seq(i - 1, k requires 0 <= k < i - 1 =>
        InteriorPoint(start, end, segments, amplitude, jitter[k], k + 1))
    {
      path := path + [InteriorPoint(start, end, segments, amplitude, jitter[i - 1], i)];
      i := i + 1;
    }
    path := path + [end];
  }
}

=== FILE: narration.dfy ===
/**
 * The narration button of App.tsx (`playExplanation` and the `isSpeaking`
 * flag). A press while a narration is requested or playing is ignored;
 * otherwise the flag is raised and a request goes to the speech service.
 * The reply, the `atob` decoding of its payload and the end of playback
 * are inputs: the service and the browser are not modelled as code.
 */
module Narration {
  import opened Results
  import Pcm

  /** The speech service returns 24 kHz mono audio; App.tsx decodes it with these values. */
  const SampleRate: int := 24000
  const Channels: int := 1

  /** What the awaited service call produced. */
  datatype Reply =
    | TransportFailure                       // the call rejected
    | Response(inlineData: Option<string>)   // the payload field, None when the path is missing

  /** `isSpeaking` is false exactly in `Idle`; `Playing` holds the buffer being played. */
  datatype SpeakingState = Idle | Requesting | Playing(buffer: Pcm.AudioBuffer)

  predicate IsSpeaking(s: SpeakingState) {
    !s.Idle?
  }

  datatype Event =
    | Press              // the "Lyssna" button is clicked
    | Answer(reply: Reply)
    | PlaybackEnded      // the buffer source's onended callback

  /**
   * The audio a reply carries, if any: the payload must be a non-empty
   * string (the truthiness test), `atob` must not throw (None models the
   * exception) and the decoded PCM must be accepted by the platform.
   */
  function ReplyAudio(reply: Reply, atob: string -> Option<string>): (r: Option<Pcm.AudioBuffer>)
    ensures reply.TransportFailure? || (reply.Response? && (reply.inlineData.None? || reply.inlineData.value == "")) ==> r.None?
    ensures reply.Response? && reply.inlineData.Some? && atob(reply.inlineData.value).None? ==> r.None?
    ensures r.Some? ==>
      && r.value.sampleRate == SampleRate && |r.value.channels| == Channels
      && Pcm.InUnitRange(r.value)
  {
    match reply
    case TransportFailure => None
    case Response(None) => None
    case Response(Some(b64)) =>
      if b64 == "" then None
      else match atob(b64)
        case None => None
        case Some(binary) =>
          match Pcm.Decode(Pcm.CopyBytes(binary), SampleRate, Channels)
          case Success(buffer) => Some(buffer)
          case Failure(_) => None
  }

  /** The state after the awaited call returns: playback starts or the flag is cleared. */
  function Resolve(reply: Reply, atob: string -> Option<string>): (r: SpeakingState)
    ensures r.Idle? || r.Playing?
    ensures r.Playing? ==>
      && reply.Response? && reply.inlineData.Some? && reply.inlineData.value != ""
      && atob(reply.inlineData.value).Some?
      && Pcm.Decode(Pcm.CopyBytes(atob(reply.inlineData.value).value), SampleRate, Channels) == Success(r.buffer)
    ensures reply.TransportFailure? ==> r == Idle
    ensures reply.Response? && (reply.inlineData.None? || reply.inlineData.value == "") ==> r == Idle
    ensures
      && reply.Response? && reply.inlineData.Some? && reply.inlineData.value != ""
      && atob(reply.inlineData.value).Some?
      && Pcm.Decode(Pcm.CopyBytes(atob(reply.inlineData.value).value), SampleRate, Channels).Success?
      ==> r == Playing(Pcm.Decode(Pcm.CopyBytes(atob(reply.inlineData.value).value), SampleRate, Channels).value)
  {
    match ReplyAudio(reply, atob)
    case Some(buffer) => Playing(buffer)
    case None => Idle
  }

  function Step(s: SpeakingState, e: Event, atob: string -> Option<string>): (r: SpeakingState)
    ensures e.Press? ==> IsSpeaking(r)
    ensures e.Press? && IsSpeaking(s) ==> r == s
    ensures e.Press? && !IsSpeaking(s) ==> r == Requesting
    ensures e.Answer? && s.Requesting? ==> r == Resolve(e.reply, atob)
    ensures e.Answer? && !s.Requesting? ==> r == s
    ensures e.PlaybackEnded? ==> !r.Playing?
    ensures !s.Requesting? && !e.Press? ==> !r.Requesting?
  {
    match e
    case Press => if IsSpeaking(s) then s else Requesting
    case Answer(reply) => if s.Requesting? then Resolve(reply, atob) else s
    case PlaybackEnded => if s.Playing? then Idle else s
  }

  /** A press sends a request to the service exactly when the flag is down. */
  predicate Sends(s: SpeakingState, e: Event) {
    e.Press? && !IsSpeaking(s)
  }

  /** A state with the number of requests sent and of replies consumed so far. */
  datatype History = History(state: SpeakingState, sent: nat, answered: nat)

  /** Run the machine from `Idle` over a sequence of events. */
  function Run(events: seq<Event>, atob: string -> Option<string>): History
    decreases |events|
  {
    if events == [] then History(Idle, 0, 0)
    else
      var h := Run(events[..|events| - 1], atob);
      var e := events[|events| - 1];
      History(Step(h.state, e, atob),
              h.sent + (if Sends(h.state, e) then 1 else 0),
              h.answered + (if e.Answer? && h.state.Requesting? then 1 else 0))
  }

  /**
   * Single flight: at any point at most one request is outstanding, and one
   * is outstanding exactly while the machine waits for the service.
   */
  lemma {:induction false} SingleFlight(events: seq<Event>, atob: string -> Option<string>)
    ensures Run(events, atob).state.Requesting? ==> Run(events, atob).sent == Run(events, atob).answered + 1
    ensures !Run(events, atob).state.Requesting? ==> Run(events, atob).sent == Run(events, atob).answered
    decreases |events|
  {
    if events != [] {
      SingleFlight(events[..|events| - 1], atob);
    }
  }

  /**
   * Every outcome lowers the flag: whatever the reply, once it has been
   * handled and any playback it started has ended, the machine is idle.
   */
  lemma AnswerThenEndIsIdle(reply: Reply, atob: string -> Option<string>)
    ensures Step(Step(Requesting, Answer(reply), atob), PlaybackEnded, atob) == Idle
  {
  }

  /** What is played is always a 24 kHz mono buffer with samples in [-1, 1). */
  predicate PlaysValidAudio(s: SpeakingState) {
    s.Playing? ==>
      && s.buffer.sampleRate == SampleRate
      && |s.buffer.channels| == Channels
      && Pcm.InUnitRange(s.buffer)
  }

  lemma {:induction false} OnlyValidAudioPlays(events: seq<Event>, atob: string -> Option<string>)
    ensures PlaysValidAudio(Run(events, atob).state)
    decreases |events|
  {
    if events != [] {
      OnlyValidAudioPlays(events[..|events| - 1], atob);
      var s := Run(events[..|events| - 1], atob).state;
      var e := events[|events| - 1];
      if e.Answer? && s.Requesting? {
        var r := Resolve(e.reply, atob);
        if r.Playing? {
          var data := Pcm.CopyBytes(atob(e.reply.inlineData.value).value);
          assert Pcm.Decode(data, SampleRate, Channels) == Success(r.buffer);
        }
      }
    }
  }
}

=== FILE: navigation.dfy ===
/**
 * Step navigation of the slideshow (App.tsx): the current step index is
 * moved by the "next" and "previous" buttons and clamped to the five steps
 * defined in constants.ts.
 */
module Navigation {

  /** Number of pedagogical steps (the length of STEPS). */
  const StepCount: nat := 5

  /** Index of the final step, the only one on which strikes are shown. */
  const LastStep: nat := StepCount - 1

  predicate ValidStep(s: int) {
    0 <= s < StepCount
  }

  /** The "next" button: one step forward, saturating at the last step. */
  function NextStep(s: int): (r: int)
    ensures r <= LastStep
    ensures s < LastStep ==> r == s + 1
    ensures LastStep <= s ==> r == LastStep
  {
    if s + 1 <= LastStep then s + 1 else LastStep
  }

  /** The "previous" button: one step back, saturating at the first step. */
  function PrevStep(s: int): (r: int)
    ensures 0 <= r
    ensures 0 < s ==> r == s - 1
    ensures s <= 0 ==> r == 0
  {
    if s - 1 > 0 then s - 1 else 0
  }

  /** Pressing "next" on the last step leaves it there. */
  lemma NextIdempotentAtLast()
    ensures NextStep(LastStep) == LastStep
    ensures NextStep(NextStep(LastStep)) == NextStep(LastStep)
  {
  }

  /** From any step but the last, "next" followed by "previous" returns to it. */
  lemma PrevAfterNext(s: int)
    requires 0 <= s < LastStep
    ensures PrevStep(NextStep(s)) == s
  {
  }

  /** From any step but the first, "previous" followed by "next" returns to it. */
  lemma NextAfterPrev(s: int)
    requires 0 < s <= LastStep
    ensures NextStep(PrevStep(s)) == s
  {
  }

  datatype Button = Next | Prev

  function Press(s: int, b: Button): int {
    match b
    case Next => NextStep(s)
    case Prev => PrevStep(s)
  }

  /** The step reached from `s` after pressing `presses` in order. */
  function Navigate(s: int, presses: seq<Button>): int
    decreases |presses|
  {
    if presses == [] then s else Navigate(Press(s, presses[0]), presses[1..])
  }

  /**
   * Whatever buttons are pressed, starting from a valid step (the app starts
   * at step 0) the current step stays a valid index into STEPS, and the
   * result is never further from the start than the number of presses.
   */
  lemma {:induction false} NavigateStaysValid(s: int, presses: seq<Button>)
    requires ValidStep(s)
    ensures ValidStep(Navigate(s, presses))
    ensures s - |presses| <= Navigate(s, presses) <= s + |presses|
    decreases |presses|
  {
    if presses != [] {
      NavigateStaysValid(Press(s, presses[0]), presses[1..]);
    }
  }
}

=== FILE: paragraphs.dfy ===
/**
 * How App.tsx renders a step's long description: the text is split on the
 * separator ". " (JavaScript `String.prototype.split` with a string
 * separator) and each piece becomes one paragraph, with a full stop added
 * unless the piece already ends with one.
 */
module Paragraphs {

  const Separator: string := ". "

  /** A separator begins at index `i` of `s`. */
  predicate SeparatorAt(s: string, i: int) {
    0 <= i && i + 1 < |s| && s[i] == '.' && s[i + 1] == ' '
  }

  predicate HasNoSeparator(s: string) {
    forall i :: 0 <= i < |s| ==> !SeparatorAt(s, i)
  }

  /** The number of positions at which a separator begins. */
  function CountSeparators(s: string): nat
    decreases |s|
  {
    if |s| < 2 then 0
    else (if SeparatorAt(s, 0) then 1 else 0) + CountSeparators(s[1..])
  }

  /** Scan left to right, `piece` being the text since the last separator. */
  function SplitFrom(s: string, piece: string): (pieces: seq<string>)
    ensures |pieces| >= 1
    decreases |s|
  {
    if |s| < 2 then [piece + s]
    else if SeparatorAt(s, 0) then [piece] + SplitFrom(s[2..], "")
    else SplitFrom(s[1..], piece + [s[0]])
  }

  /**
   * `text.split('. ')`: the pieces that join back to the text and contain no
   * separator themselves.
   */
  function Split(text: string): (pieces: seq<string>)
    ensures |pieces| >= 1
    ensures Join(pieces) == text
    ensures forall k :: 0 <= k < |pieces| ==> HasNoSeparator(pieces[k])
  {
    SplitFromJoin(text, "");
    SplitFromPiecesClean(text, "");
    SplitFrom(text, "")
  }

  /** The pieces glued back together with the separator (`Array.prototype.join`). */
  function Join(pieces: seq<string>): string
    decreases |pieces|
  {
    if |pieces| == 0 then ""
    else if |pieces| == 1 then pieces[0]
    else pieces[0] + Separator + Join(pieces[1..])
  }

  lemma {:induction false} SplitFromCount(s: string, piece: string)
    ensures |SplitFrom(s, piece)| == CountSeparators(s) + 1
    decreases |s|
  {
    if |s| >= 2 {
      if SeparatorAt(s, 0) {
        SplitFromCount(s[2..], "");
        assert !SeparatorAt(s[1..], 0);
        assert s[1..][1..] == s[2..];
      } else {
        SplitFromCount(s[1..], piece + [s[0]]);
      }
    }
  }

  lemma {:induction false} SplitFromJoin(s: string, piece: string)
    ensures Join(SplitFrom(s, piece)) == piece + s
    decreases |s|
  {
    if |s| >= 2 {
      if SeparatorAt(s, 0) {
        SplitFromJoin(s[2..], "");
        assert s == Separator + s[2..];
      } else {
        SplitFromJoin(s[1..], piece + [s[0]]);
        assert piece + [s[0]] + s[1..] == piece + s;
      }
    }
  }

  /**
   * The split yields one more piece than there are separators in the text,
   * and joining the pieces with the separator gives the text back.
   */
  lemma SplitCountAndJoin(text: string)
    ensures |Split(text)| == CountSeparators(text) + 1
    ensures Join(Split(text)) == text
  {
    SplitFromCount(text, "");
    SplitFromJoin(text, "");
  }

  /** No piece contains the separator. */
  lemma {:induction false} SplitFromPiecesClean(s: string, piece: string)
    requires HasNoSeparator(piece)
    requires |piece| > 0 && piece[|piece| - 1] == '.' && |s| > 0 ==> s[0] != ' '
    ensures forall k :: 0 <= k < |SplitFrom(s, piece)| ==> HasNoSeparator(SplitFrom(s, piece)[k])
    decreases |s|
  {
    if |s| < 2 {
      var last := piece + s;
      forall i | 0 <= i < |last|
        ensures !SeparatorAt(last, i)
      {
        if i + 1 < |piece| {
          assert !SeparatorAt(piece, i);
        }
      }
    } else if SeparatorAt(s, 0) {
      SplitFromPiecesClean(s[2..], "");
    } else {
      var next := piece + [s[0]];
      forall i | 0 <= i < |next|
        ensures !SeparatorAt(next, i)
      {
        if i + 1 < |piece| {
          assert !SeparatorAt(piece, i);
        }
      }
      SplitFromPiecesClean(s[1..], next);
    }
  }

  lemma SplitPiecesClean(text: string)
    ensures forall k :: 0 <= k < |Split(text)| ==> HasNoSeparator(Split(text)[k])
  {
    SplitFromPiecesClean(text, "");
  }

  /** `sentence + (sentence.endsWith('.') ? '' : '.')`. */
  function Render(sentence: string): (p: string)
    ensures |p| > 0 && p[|p| - 1] == '.'
    ensures |p| - 1 <= |sentence| <= |p| && p[..|sentence|] == sentence
    ensures |sentence| > 0 && sentence[|sentence| - 1] == '.' ==> p == sentence
  {
    if |sentence| > 0 && sentence[|sentence| - 1] == '.' then sentence else sentence + "."
  }

  /** The paragraphs rendered for a long description. */
  function RenderedParagraphs(text: string): (ps: seq<string>)
    ensures |ps| == CountSeparators(text) + 1 == |Split(text)|
    ensures forall k :: 0 <= k < |ps| ==> |ps[k]| > 0 && ps[k][|ps[k]| - 1] == '.'
    ensures forall k :: 0 <= k < |ps| ==> Split(text)[k] <= ps[k] && |ps[k]| <= |Split(text)[k]| + 1
    ensures forall k :: 0 <= k < |ps| ==>
      (|Split(text)[k]| > 0 && Split(text)[k][|Split(text)[k]| - 1] == '.' <==> ps[k] == Split(text)[k])
  {
    SplitCountAndJoin(text);
    var pieces := Split(text);
    seq(|pieces|, k requires 0 <= k < |pieces| => Render(pieces[k]))
  }

  /** "A. B." splits into "A" and "B.". */
  lemma SplitExample()
    ensures Split("A. B.") == ["A", "B."]
  {
    assert SplitFrom(".", "B") == ["B."] by {
      assert "B" + "." == "B.";
    }
    assert SplitFrom("B.", "") == ["B."] by {
      assert !SeparatorAt("B.", 0);
      assert "B."[1..] == ".";
      assert "" + ['B'] == "B";
    }
    assert SplitFrom(". B.", "A") == ["A", "B."] by {
      assert SeparatorAt(". B.", 0);
      assert ". B."[2..] == "B.";
    }
    assert !SeparatorAt("A. B.", 0);
    assert "A. B."[1..] == ". B.";
    assert "" + ['A'] == "A";
  }

  /** ... and renders as the two paragraphs "A." and "B.". */
  lemma RenderExample()
    ensures RenderedParagraphs("A. B.") == ["A.", "B."]
  {
    SplitExample();
    assert Render("A") == "A.";
    assert Render("B.") == "B.";
  }
}

=== FILE: particles.dfy ===
/**
 * The particle system of components/ParticleSystem.tsx: a population of
 * charged ice and hail particles created once with random positions and
 * velocities, and advanced once per animation frame by a deterministic
 * rule that depends on the phase (the `step` prop it receives).
 */
module Particles {
  import opened Randomness

  /** PARTICLE_COUNT. */
  const ParticleCount: nat := 45

  datatype Charge = Positive | Negative
  datatype Kind = Ice | Hail

  /** The `Particle` record. */
  datatype Particle = Particle(id: int, x: real, y: real, vx: real, vy: real, charge: Charge, kind: Kind)

  function Abs(r: real): real {
    if r < 0.0 then -r else r
  }

  predicate Outside(v: real, lo: real, hi: real) {
    v < lo || v > hi
  }

  /** The height a particle drifts to once charges separate: positive up, negative down. */
  function TargetY(c: Charge): real {
    if c == Positive then 140.0 else 260.0
  }

  /** Velocity after the early-phase rules (phase <= 1): bounce in the box, rise in phase 1. */
  function EarlyVelocity(p: Particle, phase: int): (v: (real, real))
    requires phase <= 1
  {
    var nx, ny := p.x + p.vx, p.y + p.vy;
    var vx := if Outside(nx, 200.0, 600.0) then -p.vx else p.vx;
    var vy := if Outside(ny, 100.0, 300.0) then -p.vy else p.vy;
    (vx, if phase == 1 then vy - 0.05 else vy)
  }

  /** Velocity after the late-phase rules: pull toward the target height, friction, bounce in the band. */
  function LateVelocity(p: Particle): (v: (real, real)) {
    var nx, ny := p.x + p.vx, p.y + p.vy;
    var vy := (p.vy + (TargetY(p.charge) - ny) * 0.01) * 0.95;
    var vx := p.vx * 0.95;
    (if Outside(nx, 220.0, 580.0) then -vx else vx, vy)
  }

  /**
   * One frame for one particle. The position moves by the old velocity and
   * then again by the updated one; identity, charge and kind never change.
   */
  function Update(p: Particle, phase: int): (q: Particle)
    ensures q.id == p.id && q.charge == p.charge && q.kind == p.kind
    ensures q.x == p.x + p.vx + q.vx && q.y == p.y + p.vy + q.vy
    ensures phase <= 1 ==> (Outside(p.x + p.vx, 200.0, 600.0) ==> q.vx == -p.vx)
    ensures phase <= 1 ==> (!Outside(p.x + p.vx, 200.0, 600.0) ==> q.vx == p.vx)
    ensures phase <= 0 ==> q.vy == (if Outside(p.y + p.vy, 100.0, 300.0) then -p.vy else p.vy)
    ensures phase == 1 ==> q.vy == (if Outside(p.y + p.vy, 100.0, 300.0) then -p.vy else p.vy) - 0.05
    ensures phase >= 2 ==> q.vy == 0.95 * (p.vy + 0.01 * (TargetY(p.charge) - (p.y + p.vy)))
    ensures phase >= 2 ==> q.vx == (if Outside(p.x + p.vx, 220.0, 580.0) then -0.95 * p.vx else 0.95 * p.vx)
  {
    var v := if phase <= 1 then EarlyVelocity(p, phase) else LateVelocity(p);
    p.(x := p.x + p.vx + v.0, y := p.y + p.vy + v.1, vx := v.0, vy := v.1)
  }

  /** One animation frame: every particle updated independently, order and count kept. */
  function Frame(ps: seq<Particle>, phase: int): (qs: seq<Particle>)
    ensures |qs| == |ps|
    ensures forall i :: 0 <= i < |ps| ==> qs[i].id == ps[i].id && qs[i].charge == ps[i].charge && qs[i].kind == ps[i].kind
  {
    seq(|ps|, i requires 0 <= i < |ps| => Update(ps[i], phase))
  }

  /** Particles do not interact: a frame of a concatenation is the concatenation of the frames. */
  lemma FrameIsPointwise(ps: seq<Particle>, rs: seq<Particle>, phase: int)
    ensures Frame(ps + rs, phase) == Frame(ps, phase) + Frame(rs, phase)
  {
  }

  /** `n` frames at a fixed phase. */
  function Frames(ps: seq<Particle>, phase: int, n: nat): seq<Particle>
    decreases n
  {
    if n == 0 then ps else Frames(Frame(ps, phase), phase, n - 1)
  }

  // ---------------------------------------------------------------------------
  // Early phases: bouncing in the box
  // ---------------------------------------------------------------------------

  /**
   * In the early phases a bounce cancels the horizontal move: the particle
   * stays where it was and heads back. A particle about to cross the right
   * wall (for instance at x = 601 moving right) turns left.
   */
  lemma BounceReturns(p: Particle, phase: int)
    requires phase <= 1 && Outside(p.x + p.vx, 200.0, 600.0)
    ensures Update(p, phase).x == p.x
    ensures p.x + p.vx > 600.0 && p.vx > 0.0 ==> Update(p, phase).vx < 0.0
    ensures p.x + p.vx < 200.0 && p.vx < 0.0 ==> Update(p, phase).vx > 0.0
  {
  }

  /** Horizontal speed is kept in the early phases, and in phase 0 the vertical speed too. */
  lemma EarlySpeedKept(p: Particle, phase: int)
    requires phase <= 1
    ensures Abs(Update(p, phase).vx) == Abs(p.vx)
    ensures phase <= 0 ==> Abs(Update(p, phase).vy) == Abs(p.vy)
  {
  }

  /**
   * A particle never strays from the box [200, 600] by more than its own
   * horizontal speed; likewise vertically in [100, 300] in phase 0.
   */
  predicate NearBoxX(p: Particle) {
    200.0 - Abs(p.vx) <= p.x <= 600.0 + Abs(p.vx)
  }

  predicate NearBoxY(p: Particle) {
    100.0 - Abs(p.vy) <= p.y <= 300.0 + Abs(p.vy)
  }

  lemma UpdateKeepsNearBox(p: Particle, phase: int)
    requires phase <= 1
    ensures NearBoxX(p) ==> NearBoxX(Update(p, phase))
    ensures phase <= 0 && NearBoxY(p) ==> NearBoxY(Update(p, phase))
  {
    EarlySpeedKept(p, phase);
  }

  /** ... for every particle and any number of early-phase frames. */
  lemma {:induction false} FramesKeepNearBox(ps: seq<Particle>, phase: int, n: nat)
    requires phase <= 1
    requires forall i :: 0 <= i < |ps| ==> NearBoxX(ps[i])
    requires phase <= 0 ==> forall i :: 0 <= i < |ps| ==> NearBoxY(ps[i])
    ensures |Frames(ps, phase, n)| == |ps|
    ensures forall i :: 0 <= i < |ps| ==> NearBoxX(Frames(ps, phase, n)[i])
    ensures phase <= 0 ==> forall i :: 0 <= i < |ps| ==> NearBoxY(Frames(ps, phase, n)[i])
    decreases n
  {
    if n > 0 {
      var qs := Frame(ps, phase);
      forall i | 0 <= i < |ps|
        ensures NearBoxX(qs[i])
        ensures phase <= 0 ==> NearBoxY(qs[i])
      {
        UpdateKeepsNearBox(ps[i], phase);
      }
      FramesKeepNearBox(qs, phase, n - 1);
    }
  }

  // ---------------------------------------------------------------------------
  // Late phases: separation by charge
  // ---------------------------------------------------------------------------

  /** Friction: horizontal speed shrinks by 5% per frame. */
  lemma LateDamping(p: Particle, phase: int)
    requires phase >= 2
    ensures Abs(Update(p, phase).vx) == 0.95 * Abs(p.vx)
    ensures Outside(p.x + p.vx, 220.0, 580.0) && p.vx != 0.0 ==> Update(p, phase).vx * p.vx < 0.0
  {
  }

  /**
   * From rest, one frame moves a particle toward the height of its charge
   * without overshooting it, and vertical speed points at the target.
   */
  lemma PullFromRest(p: Particle, phase: int)
    requires phase >= 2 && p.vy == 0.0
    ensures p.y < TargetY(p.charge) ==> p.y < Update(p, phase).y < TargetY(p.charge) && Update(p, phase).vy > 0.0
    ensures p.y > TargetY(p.charge) ==> TargetY(p.charge) < Update(p, phase).y < p.y && Update(p, phase).vy < 0.0
    ensures p.y == TargetY(p.charge) ==> Update(p, phase).y == p.y
  {
  }

  /** A particle at rest at its target height inside the band stays there. */
  lemma RestingIsFixed(p: Particle, phase: int)
    requires phase >= 2 && p.vx == 0.0 && p.vy == 0.0
    requires p.y == TargetY(p.charge) && 220.0 <= p.x <= 580.0
    ensures Update(p, phase) == p
  {
  }

  /**
   * Vertical energy about the target height: with e = y - target and
   * v = vy, E = 19e^2 + 100ev + 3881v^2, a positive definite form that
   * bounds the squared offset from the target from above.
   */
  function VerticalEnergy(p: Particle): real {
    var e := p.y - TargetY(p.charge);
    19.0 * e * e + 100.0 * e * p.vy + 3881.0 * p.vy * p.vy
  }

  lemma EnergyBoundsOffset(p: Particle)
    ensures 18.0 * (p.y - TargetY(p.charge)) * (p.y - TargetY(p.charge)) <= VerticalEnergy(p)
  {
    var e, v := p.y - TargetY(p.charge), p.vy;
    var w := 3881.0 * v + 50.0 * e;
    assert 3881.0 * VerticalEnergy(p) == w * w + 71239.0 * (e * e);
    SquareNonNegative(w);
    SquareNonNegative(e);
    SumOfSquares(VerticalEnergy(p), w * w, e * e);
    assert 18.0 * e * e == 18.0 * (e * e);
  }

  /** The completed-square form of the energy, on plain reals. */
  lemma SumOfSquares(energy: real, a: real, b: real)
    requires 3881.0 * energy == a + 71239.0 * b && 0.0 <= a && 0.0 <= b
    ensures 18.0 * b <= energy
  {
  }

  lemma SquareNonNegative(r: real)
    ensures 0.0 <= r * r
  {
    if r < 0.0 {
      assert r * r == (-r) * (-r);
    }
  }

  /** From phase 2 on, each frame multiplies the vertical energy by exactly 0.95. */
  lemma EnergyDecays(p: Particle, phase: int)
    requires phase >= 2
    ensures VerticalEnergy(Update(p, phase)) == 0.95 * VerticalEnergy(p)
  {
    var e, v := p.y - TargetY(p.charge), p.vy;
    var q := Update(p, phase);
    var e', v' := q.y - TargetY(p.charge), q.vy;
    assert v' == 0.9405 * v - 0.0095 * e;
    assert e' == 0.9905 * e + 1.9405 * v;
  }

  function Pow(r: real, n: nat): real
    decreases n
  {
    if n == 0 then 1.0 else r * Pow(r, n - 1)
  }

  /** One particle alone over n frames: particles do not interact, so this is its track. */
  function Evolve(p: Particle, phase: int, n: nat): (r: Particle)
    ensures r.id == p.id && r.charge == p.charge && r.kind == p.kind
    decreases n
  {
    if n == 0 then p else Evolve(Update(p, phase), phase, n - 1)
  }

  /** n frames of the whole population move each particle along its own track. */
  lemma {:induction false} FramesAreTracks(ps: seq<Particle>, phase: int, n: nat)
    ensures |Frames(ps, phase, n)| == |ps|
    ensures forall i :: 0 <= i < |ps| ==> Frames(ps, phase, n)[i] == Evolve(ps[i], phase, n)
    decreases n
  {
    if n > 0 {
      FramesAreTracks(Frame(ps, phase), phase, n - 1);
    }
  }

  /** After n late-phase frames a particle's vertical energy is 0.95^n times what it was. */
  lemma {:induction false} TrackDecays(p: Particle, phase: int, n: nat)
    requires phase >= 2
    ensures VerticalEnergy(Evolve(p, phase, n)) == Pow(0.95, n) * VerticalEnergy(p)
    decreases n
  {
    if n > 0 {
      var q := Update(p, phase);
      TrackDecays(q, phase, n - 1);
      EnergyDecays(p, phase);
      ScaleTwice(VerticalEnergy(Evolve(p, phase, n)), VerticalEnergy(q), VerticalEnergy(p), Pow(0.95, n - 1));
    }
  }

  lemma ScaleTwice(x: real, y: real, z: real, k: real)
    requires x == k * y && y == 0.95 * z
    ensures x == (0.95 * k) * z
  {
  }

  /**
   * Charge separation converges: after n late-phase frames a particle's
   * squared distance to the height of its charge is at most 0.95^n E / 18,
   * E being its vertical energy before the first of them.
   */
  lemma TrackSettles(p: Particle, phase: int, n: nat)
    requires phase >= 2
    ensures var d := Evolve(p, phase, n).y - TargetY(p.charge);
      18.0 * d * d <= Pow(0.95, n) * VerticalEnergy(p)
  {
    TrackDecays(p, phase, n);
    EnergyBoundsOffset(Evolve(p, phase, n));
  }

  // ---------------------------------------------------------------------------
  // The initial population
  // ---------------------------------------------------------------------------

  /** The four draws taken, in this order, for one particle. */
  datatype ParticleDraws = ParticleDraws(x: real, y: real, vx: real, vy: real)

  predicate ValidParticleDraws(d: ParticleDraws) {
    IsDraw(d.x) && IsDraw(d.y) && IsDraw(d.vx) && IsDraw(d.vy)
  }

  function InitialParticle(i: nat, d: ParticleDraws): (p: Particle)
    requires ValidParticleDraws(d)
    ensures 200.0 <= p.x < 600.0 && 100.0 <= p.y < 300.0
    ensures -1.0 <= p.vx < 1.0 && -1.0 <= p.vy < 1.0
    ensures (p.x - 200.0) / 400.0 == d.x && (p.y - 100.0) / 200.0 == d.y
    ensures p.vx / 2.0 + 0.5 == d.vx && p.vy / 2.0 + 0.5 == d.vy
  {
    Particle(i, d.x * 400.0 + 200.0, d.y * 200.0 + 100.0, (d.vx - 0.5) * 2.0, (d.vy - 0.5) * 2.0,
             if i % 2 == 0 then Positive else Negative,
             if i % 2 == 0 then Ice else Hail)
  }

  /**
   * The population created on mount: PARTICLE_COUNT particles numbered in
   * order, alternating positive ice and negative hail, spread over the box
   * with velocities in [-1, 1).
   */
  function InitialParticles(draws: seq<ParticleDraws>): (ps: seq<Particle>)
    requires |draws| == ParticleCount
    requires forall i :: 0 <= i < |draws| ==> ValidParticleDraws(draws[i])
    ensures |ps| == ParticleCount
    ensures forall i :: 0 <= i < |ps| ==> ps[i].id == i
    ensures forall i :: 0 <= i < |ps| ==> (ps[i].charge == Positive <==> i % 2 == 0)
    ensures forall i :: 0 <= i < |ps| ==> (ps[i].kind == Ice <==> ps[i].charge == Positive)
    ensures forall i :: 0 <= i < |ps| ==> 200.0 <= ps[i].x < 600.0 && 100.0 <= ps[i].y < 300.0
    ensures forall i :: 0 <= i < |ps| ==> -1.0 <= ps[i].vx < 1.0 && -1.0 <= ps[i].vy < 1.0
    ensures forall i :: 0 <= i < |ps| ==>
      (ps[i].x - 200.0) / 400.0 == draws[i].x && (ps[i].y - 100.0) / 200.0 == draws[i].y
    ensures forall i :: 0 <= i < |ps| ==>
      ps[i].vx / 2.0 + 0.5 == draws[i].vx && ps[i].vy / 2.0 + 0.5 == draws[i].vy
  {
    seq(|draws|, i requires 0 <= i < |draws| => InitialParticle(i, draws[i]))
  }

  /** Half of the population (23 of 45) is positive. */
  lemma PositiveCount(draws: seq<ParticleDraws>)
    requires |draws| == ParticleCount
    requires forall i :: 0 <= i < |draws| ==> ValidParticleDraws(draws[i])
    ensures |set i | 0 <= i < ParticleCount && InitialParticles(draws)[i].charge == Positive| == 23
  {
    var ps := InitialParticles(draws);
    var evens := set i | 0 <= i < ParticleCount && i % 2 == 0;
    assert (set i | 0 <= i < ParticleCount && ps[i].charge == Positive) == evens;
    var doubles := set k | 0 <= k < 23 :: 2 * k;
    forall i | i in evens
      ensures i in doubles
    {
      assert i == 2 * (i / 2);
    }
    forall j | j in doubles
      ensures j in evens
    {
      var k :| 0 <= k < 23 && j == 2 * k;
    }
    assert evens == doubles;
    SizeOfDoubles(23);
  }

  lemma {:induction false} SizeOfDoubles(n: nat)
    ensures |set k | 0 <= k < n :: 2 * k| == n
  {
    if n > 0 {
      SizeOfDoubles(n - 1);
      assert (set k | 0 <= k < n :: 2 * k) == (set k | 0 <= k < n - 1 :: 2 * k) + {2 * (n - 1)};
    }
  }

  /** The initial population starts inside the region the early phases keep it near. */
  lemma InitialNearBox(draws: seq<ParticleDraws>)
    requires |draws| == ParticleCount
    requires forall i :: 0 <= i < |draws| ==> ValidParticleDraws(draws[i])
    ensures forall i :: 0 <= i < ParticleCount ==>
      NearBoxX(InitialParticles(draws)[i]) && NearBoxY(InitialParticles(draws)[i])
  {
  }
}

=== FILE: pcm.dfy ===
/**
 * The two audio helpers of App.tsx: `decodeBase64`, which copies the
 * characters of the binary string produced by `atob` into a byte array, and
 * `decodeAudioData`, which reinterprets those bytes as interleaved signed
 * 16-bit little-endian PCM samples and splits them into one channel of
 * scaled samples each.
 *
 * `atob` and the platform objects (`Int16Array`, `AudioContext.createBuffer`)
 * are not modelled as code; what they do with this input is stated instead:
 * an `Int16Array` view over an odd number of bytes throws a RangeError, and
 * `createBuffer` throws a NotSupportedError for zero channels or zero frames.
 */
module Pcm {
  import opened Results

  /** A value stored in a `Uint8Array`. */
  type Byte = b: int | 0 <= b < 256

  /** A value read from an `Int16Array`. */
  type Int16 = v: int | -32768 <= v < 32768

  /** Divisor that maps a 16-bit sample to a float in [-1, 1). */
  const Scale: real := 32768.0

  // ---------------------------------------------------------------------------
  // decodeBase64: the byte-per-character copy after atob
  // ---------------------------------------------------------------------------

  /** Storing a character code into a `Uint8Array` keeps it modulo 256. */
  function ByteOfChar(c: char): Byte {
    (c as int) % 256
  }

  /** A string whose characters are all byte values, as `atob` returns. */
  predicate IsBinaryString(s: string) {
    forall i :: 0 <= i < |s| ==> (s[i] as int) < 256
  }

  function CopyBytes(binary: string): seq<Byte> {
    seq(|binary|, i requires 0 <= i < |binary| => ByteOfChar(binary[i]))
  }

  /** The binary string whose character codes are the given bytes. */
  function BinaryString(bytes: seq<Byte>): (s: string)
    ensures |s| == |bytes|
    ensures IsBinaryString(s)
  {
    seq(|bytes|, i requires 0 <= i < |bytes| => bytes[i] as char)
  }

  /** The copy loop of `decodeBase64`: one byte per character, in order. */
  method DecodeBase64Bytes(binary: string) returns (bytes: seq<Byte>)
    ensures |bytes| == |binary|
    ensures forall i :: 0 <= i < |binary| ==> bytes[i] == ByteOfChar(binary[i])
  {
    bytes := [];
    var i := 0;
    while i < |binary|
      invariant 0 <= i <= |binary|
      invariant |bytes| == i
      invariant forall j :: 0 <= j < i ==> bytes[j] == ByteOfChar(binary[j])
    {
      bytes := bytes + [ByteOfChar(binary[i])];
      i := i + 1;
    }
  }

  /**
   * On a binary string the copy loses nothing: the bytes spell the string
   * back, and every byte sequence is recovered from its binary string.
   */
  lemma CopyBytesRoundTrip(binary: string, bytes: seq<Byte>)
    ensures IsBinaryString(binary) ==> BinaryString(CopyBytes(binary)) == binary
    ensures CopyBytes(BinaryString(bytes)) == bytes
  {
    if IsBinaryString(binary) {
      var back := BinaryString(CopyBytes(binary));
      forall i | 0 <= i < |binary|
        ensures back[i] == binary[i]
      {
        assert (binary[i] as int) % 256 == binary[i] as int;
      }
    }
  }

  // ---------------------------------------------------------------------------
  // 16-bit little-endian samples
  // ---------------------------------------------------------------------------

  /** Number of 16-bit samples an even-length byte buffer holds. */
  function SampleCount(data: seq<Byte>): nat {
    |data| / 2
  }

  /** Sample `k` of the `Int16Array` view: bytes 2k (low) and 2k+1 (high), two's complement. */
  function SampleAt(data: seq<Byte>, k: int): Int16
    requires 0 <= k < SampleCount(data)
  {
    var u: int := data[2 * k] as int + 256 * data[2 * k + 1] as int;
    if u < 32768 then u else u - 65536
  }

  /** Low and high byte of the two's-complement encoding of a sample. */
  function LowByte(v: Int16): Byte {
    (v % 65536) % 256
  }

  function HighByte(v: Int16): Byte {
    (v % 65536) / 256
  }

  /** Little-endian encoding of a sample sequence: the inverse of the `Int16Array` view. */
  function EncodeSamples(s: seq<Int16>): (data: seq<Byte>)
    ensures |data| == 2 * |s|
  {
    seq(2 * |s|, j requires 0 <= j < 2 * |s| => if j % 2 == 0 then LowByte(s[j / 2]) else HighByte(s[j / 2]))
  }

  /** Reading the samples back from their encoding gives the samples. */
  lemma DecodeEncodeSamples(s: seq<Int16>)
    ensures SampleCount(EncodeSamples(s)) == |s|
    ensures forall k :: 0 <= k < |s| ==> SampleAt(EncodeSamples(s), k) == s[k]
  {
    forall k | 0 <= k < |s|
      ensures SampleAt(EncodeSamples(s), k) == s[k]
    {
      EncodedSample(s, k);
    }
  }

  // ---------------------------------------------------------------------------
  // decodeAudioData
  // ---------------------------------------------------------------------------

  /** The platform audio buffer: its sample rate and one float array per channel. */
  datatype AudioBuffer = AudioBuffer(sampleRate: int, channels: seq<seq<real>>)

  /** The exceptions the platform objects throw while decoding. */
  datatype DecodeError =
    | RangeError          // Int16Array over a buffer of odd byte length
    | NotSupportedError   // createBuffer with no channels or no frames

  /** Frames per channel: the sample count divided by the channel count, truncated. */
  function FrameCount(data: seq<Byte>, numChannels: int): nat
    requires 1 <= numChannels
  {
    SampleCount(data) / numChannels
  }

  lemma FrameIndexInRange(i: int, c: int, n: int, frames: int)
    requires 0 <= i < frames && 0 <= c < n
    ensures 0 <= i * n + c < frames * n
  {
    assert (i + 1) * n <= frames * n;
  }

  lemma FrameBlockFits(data: seq<Byte>, n: int)
    requires 1 <= n
    ensures FrameCount(data, n) * n <= SampleCount(data)
  {
  }

  /** Channel `c` of an interleaved sample stream with `n` channels, scaled by 1/32768. */
  function Channel(samples: seq<Int16>, n: int, frames: nat, c: int): seq<real>
    requires 0 <= c < n && frames * n <= |samples|
  {
    seq(frames, i requires 0 <= i < frames =>
      FrameIndexInRange(i, c, n, frames);
      samples[i * n + c] as real / Scale)
  }

  /** The `Int16Array` view over an even-length buffer. */
  function Samples(data: seq<Byte>): (s: seq<Int16>)
    ensures |s| == SampleCount(data)
  {
    seq(SampleCount(data), k requires 0 <= k < SampleCount(data) => SampleAt(data, k))
  }

  /**
   * What a successful decode promises: `n` channels of `FrameCount` frames,
   * where frame `i` of channel `c` is the int16 sample `i*n + c` over 32768.
   */
  predicate DecodesTo(data: seq<Byte>, n: int, b: AudioBuffer)
    requires 1 <= n
  {
    && |b.channels| == n
    && (forall c :: 0 <= c < n ==> |b.channels[c]| == FrameCount(data, n))
    && (forall c, i :: 0 <= c < n && 0 <= i < |b.channels[c]| ==>
          i * n + c < SampleCount(data)
          && b.channels[c][i] == SampleAt(data, i * n + c) as real / Scale)
  }

  /** Every sample of the buffer lies in [-1, 32767/32768]. */
  predicate InUnitRange(b: AudioBuffer) {
    forall c, i :: 0 <= c < |b.channels| && 0 <= i < |b.channels[c]| ==>
      -1.0 <= b.channels[c][i] <= 32767.0 / Scale
  }

  /** One channel per index, as `decodeAudioData` fills them. */
  function Deinterleave(samples: seq<Int16>, n: int, frames: nat): (chs: seq<seq<real>>)
    requires 1 <= n && frames * n <= |samples|
  {
    seq(n, c requires 0 <= c < n => Channel(samples, n, frames, c))
  }

  /** The buffer built from an even-length input meets `DecodesTo` and the range bound. */
  lemma DeinterleaveDecodes(data: seq<Byte>, n: int, sampleRate: int)
    requires |data| % 2 == 0 && 1 <= n
    ensures FrameCount(data, n) * n <= SampleCount(data)
    ensures DecodesTo(data, n, AudioBuffer(sampleRate, Deinterleave(Samples(data), n, FrameCount(data, n))))
    ensures InUnitRange(AudioBuffer(sampleRate, Deinterleave(Samples(data), n, FrameCount(data, n))))
  {
    FrameBlockFits(data, n);
    forall c, i | 0 <= c < n && 0 <= i < FrameCount(data, n)
      ensures i * n + c < SampleCount(data)
      ensures Deinterleave(Samples(data), n, FrameCount(data, n))[c][i] == SampleAt(data, i * n + c) as real / Scale
      ensures -1.0 <= Deinterleave(Samples(data), n, FrameCount(data, n))[c][i] <= 32767.0 / Scale
    {
      DeinterleavedSample(data, n, c, i);
    }
  }

  lemma DeinterleavedSample(data: seq<Byte>, n: int, c: int, i: int)
    requires |data| % 2 == 0 && 0 <= c < n && 0 <= i < FrameCount(data, n)
    ensures FrameCount(data, n) * n <= SampleCount(data)
    ensures i * n + c < SampleCount(data)
    ensures Deinterleave(Samples(data), n, FrameCount(data, n))[c][i] == SampleAt(data, i * n + c) as real / Scale
    ensures -1.0 <= Deinterleave(Samples(data), n, FrameCount(data, n))[c][i] <= 32767.0 / Scale
  {
    FrameBlockFits(data, n);
    var frames := FrameCount(data, n);
    var samples := Samples(data);
    FrameIndexInRange(i, c, n, frames);
    var k := i * n + c;
    assert Channel(samples, n, frames, c)[i] == samples[k] as real / Scale;
    SampleScaledInRange(samples[k]);
  }

  lemma SampleScaledInRange(v: Int16)
    ensures -1.0 <= v as real / Scale <= 32767.0 / Scale
  {
  }

  /** `decodeAudioData(data, ctx, sampleRate, numChannels)` as a value-level function. */
  function Decode(data: seq<Byte>, sampleRate: int, numChannels: int): (r: Result<AudioBuffer, DecodeError>)
    ensures r == Failure(RangeError) <==> |data| % 2 == 1
    ensures r == Failure(NotSupportedError) <==>
      |data| % 2 == 0 && (numChannels < 1 || SampleCount(data) / numChannels == 0)
    ensures r.Success? ==> 1 <= numChannels && r.value.sampleRate == sampleRate
    ensures r.Success? ==> DecodesTo(data, numChannels, r.value)
    ensures r.Success? ==> InUnitRange(r.value)
  {
    if |data| % 2 == 1 then Failure(RangeError)
    else if numChannels < 1 || FrameCount(data, numChannels) == 0 then Failure(NotSupportedError)
    else
      DeinterleaveDecodes(data, numChannels, sampleRate);
      Success(AudioBuffer(sampleRate, Deinterleave(Samples(data), numChannels, FrameCount(data, numChannels))))
  }

  /** The nested channel/frame loops of `decodeAudioData`. */
  method DecodeAudioData(data: seq<Byte>, sampleRate: int, numChannels: int)
    returns (r: Result<AudioBuffer, DecodeError>)
    ensures r == Decode(data, sampleRate, numChannels)
  {
    if |data| % 2 == 1 {
      return Failure(RangeError);
    }
    var dataInt16 := Samples(data);
    if numChannels < 1 {
      return Failure(NotSupportedError);
    }
    var frameCount := |dataInt16| / numChannels;
    if frameCount == 0 {
      return Failure(NotSupportedError);
    }
    FrameBlockFits(data, numChannels);
    var channels: seq<seq<real>> := [];
    var channel := 0;
    while channel < numChannels
      invariant 0 <= channel <= numChannels
      invariant |channels| == channel
      invariant forall c :: 0 <= c < channel ==> channels[c] == Channel(dataInt16, numChannels, frameCount, c)
    {
      var channelData: seq<real> := [];
      var i := 0;
      while i < frameCount
        invariant 0 <= i <= frameCount
        invariant channelData == Channel(dataInt16, numChannels, frameCount, channel)[..i]
      {
        FrameIndexInRange(i, channel, numChannels, frameCount);
        channelData := channelData + [dataInt16[i * numChannels + channel] as real / Scale];
        i := i + 1;
      }
      channels := channels + [channelData];
      channel := channel + 1;
    }
    assert channels == Deinterleave(dataInt16, numChannels, frameCount);
    r := Success(AudioBuffer(sampleRate, channels));
  }

  /** The four bytes 00 40 00 C0 decode, mono, to the samples 0.5 and -0.5. */
  lemma DecodeExample()
    ensures Decode([0x00, 0x40, 0x00, 0xC0], 24000, 1) == Success(AudioBuffer(24000, [[0.5, -0.5]]))
  {
    var data: seq<Byte> := [0x00, 0x40, 0x00, 0xC0];
    var samples := Samples(data);
    assert samples[0] == SampleAt(data, 0) == 16384;
    assert samples[1] == SampleAt(data, 1) == -16384;
    var ch := Channel(samples, 1, 2, 0);
    assert ch[0] == 0.5 && ch[1] == -0.5;
    assert ch == [0.5, -0.5];
    assert Deinterleave(samples, 1, 2) == [ch];
  }

  // ---------------------------------------------------------------------------
  // Round trip: interleave, encode, decode
  // ---------------------------------------------------------------------------

  /** Euclidean division recovers frame and channel from an interleaved index. */
  lemma FrameOfIndex(i: int, c: int, n: int)
    requires 0 <= i && 0 <= c < n
    ensures (i * n + c) / n == i && (i * n + c) % n == c
  {
    var k := i * n + c;
    var q, r := k / n, k % n;
    assert (i - q) * n == r - c;
    MultipleBounds(i - q, n);
  }

  lemma MultipleBounds(a: int, n: int)
    requires 1 <= n
    ensures 1 <= a ==> n <= a * n
    ensures a <= -1 ==> a * n <= -n
  {
  }

  lemma IndexOfFrame(k: int, n: int, frames: int)
    requires 1 <= n && 0 <= k < frames * n
    ensures 0 <= k / n < frames && k == (k / n) * n + k % n
  {
  }

  /** Equally long channels, as a multi-channel recording has. */
  predicate Rectangular(chs: seq<seq<Int16>>, frames: nat) {
    forall c :: 0 <= c < |chs| ==> |chs[c]| == frames
  }

  /** The interleaved sample stream of a recording: frame by frame, channel by channel. */
  function Interleave(chs: seq<seq<Int16>>, frames: nat): (s: seq<Int16>)
    requires 1 <= |chs| && Rectangular(chs, frames)
    ensures |s| == frames * |chs|
  {
    var n := |chs|;
    seq(frames * n, k requires 0 <= k < frames * n =>
      IndexOfFrame(k, n, frames);
      chs[k % n][k / n])
  }

  /** The float channels a recording decodes to. */
  function Scaled(chs: seq<seq<Int16>>): seq<seq<real>> {
    seq(|chs|, c requires 0 <= c < |chs| =>
      seq(|chs[c]|, i requires 0 <= i < |chs[c]| => chs[c][i] as real / Scale))
  }

  /**
   * Encoding a non-empty recording as interleaved little-endian PCM and
   * decoding it with its channel count gives back every channel, scaled.
   */
  lemma DecodeEncodeRoundTrip(chs: seq<seq<Int16>>, frames: nat, sampleRate: int)
    requires 1 <= |chs| && 1 <= frames && Rectangular(chs, frames)
    ensures Decode(EncodeSamples(Interleave(chs, frames)), sampleRate, |chs|)
      == Success(AudioBuffer(sampleRate, Scaled(chs)))
  {
    var n := |chs|;
    var data := EncodeSamples(Interleave(chs, frames));
    assert FrameCount(data, n) == frames by {
      FrameOfIndex(frames, 0, n);
    }
    var r := Decode(data, sampleRate, n);
    DecodedInterleaving(chs, frames, r.value);
  }

  /** Any buffer that decodes an interleaved recording holds exactly its scaled channels. */
  lemma DecodedInterleaving(chs: seq<seq<Int16>>, frames: nat, b: AudioBuffer)
    requires 1 <= |chs| && Rectangular(chs, frames)
    requires DecodesTo(EncodeSamples(Interleave(chs, frames)), |chs|, b)
    ensures b.channels == Scaled(chs)
  {
    var n := |chs|;
    var data := EncodeSamples(Interleave(chs, frames));
    assert FrameCount(data, n) == frames by {
      FrameOfIndex(frames, 0, n);
    }
    forall c | 0 <= c < n
      ensures b.channels[c] == Scaled(chs)[c]
    {
      assert |b.channels[c]| == frames == |Scaled(chs)[c]|;
      forall i | 0 <= i < frames
        ensures b.channels[c][i] == Scaled(chs)[c][i]
      {
        InterleavedSample(chs, frames, c, i);
      }
    }
  }

  /** Sample `i*n + c` of the encoded stream is frame `i` of channel `c`. */
  lemma InterleavedSample(chs: seq<seq<Int16>>, frames: nat, c: int, i: int)
    requires 1 <= |chs| && Rectangular(chs, frames)
    requires 0 <= c < |chs| && 0 <= i < frames
    ensures 0 <= i * |chs| + c < SampleCount(EncodeSamples(Interleave(chs, frames)))
    ensures SampleAt(EncodeSamples(Interleave(chs, frames)), i * |chs| + c) == chs[c][i]
  {
    var n := |chs|;
    var s := Interleave(chs, frames);
    FrameIndexInRange(i, c, n, frames);
    FrameOfIndex(i, c, n);
    var k := i * n + c;
    assert s[k] == chs[c][i];
    EncodedSample(s, k);
  }

  lemma EncodedSample(s: seq<Int16>, k: int)
    requires 0 <= k < |s|
    ensures k < SampleCount(EncodeSamples(s)) && SampleAt(EncodeSamples(s), k) == s[k]
  {
    var data := EncodeSamples(s);
    assert data[2 * k] == LowByte(s[k]);
    assert data[2 * k + 1] == HighByte(s[k]);
  }

  /** The 16-bit sample nearest below `x * 32768`, clipped to the int16 range. */
  function Quantize(x: real): (v: Int16)
    requires -1.0 <= x <= 1.0
    ensures x - 1.0 / Scale <= v as real / Scale <= x
  {
    var f := (x * Scale).Floor;
    if f > 32767 then 32767 else f
  }

  /**
   * A float signal quantized to 16 bits, encoded and decoded mono, comes back
   * within one quantization step (1/32768) of every original sample.
   */
  lemma QuantizedRoundTrip(xs: seq<real>, sampleRate: int)
    requires 1 <= |xs|
    requires forall i :: 0 <= i < |xs| ==> -1.0 <= xs[i] <= 1.0
    ensures var q := seq(|xs|, i requires 0 <= i < |xs| => Quantize(xs[i]));
      var r := Decode(EncodeSamples(Interleave([q], |xs|)), sampleRate, 1);
      && r.Success? && |r.value.channels| == 1 && |r.value.channels[0]| == |xs|
      && forall i :: 0 <= i < |xs| ==>
           xs[i] - 1.0 / Scale <= r.value.channels[0][i] <= xs[i]
  {
    var q := seq(|xs|, i requires 0 <= i < |xs| => Quantize(xs[i]));
    DecodeEncodeRoundTrip([q], |xs|, sampleRate);
  }
}

=== FILE: random.dfy ===
/** Every `Math.random()` call of the program is an input of the model. */
module Randomness {

  /** A value `Math.random()` can return. */
  predicate IsDraw(r: real) {
    0.0 <= r < 1.0
  }
}

=== FILE: results.dfy ===
/** Failure-carrying wrappers shared by the modules of this model. */
module Results {

  /** A value that may be absent (a JavaScript `undefined`). */
  datatype Option<+T> = None | Some(value: T)

  /** The outcome of an operation that may throw: a value or the error it raises. */
  datatype Result<+R, +E> = Success(value: R) | Failure(error: E)
}

=== FILE: strike.dfy ===
/**
 * The lightning logic of components/AnimationStage.tsx: on the final step
 * a repeating timer triggers a strike of a randomly chosen category, shows
 * its label and, for a strike inside the cloud, draws a new random path; a
 * one-shot timer then clears the strike. Timers are not modelled; their
 * firings are events of the state machine below.
 */
module Strike {
  import opened Results
  import opened Randomness
  import Navigation

  datatype StrikeType = Internal | Air | GroundTree | GroundHouse

  /** The category table; `Internal` appears twice, so it is twice as likely. */
  const StrikeTable: seq<StrikeType> := [Internal, Internal, Air, GroundTree, GroundHouse]

  /** `Math.floor(Math.random() * types.length)`. */
  function TableIndex(r: real): (k: int)
    requires IsDraw(r)
    ensures 0 <= k < |StrikeTable|
    ensures k as real <= r * 5.0 < k as real + 1.0
  {
    (r * |StrikeTable| as real).Floor
  }

  /** The category picked by one draw: each fifth of [0, 1) selects one table entry. */
  function SelectStrike(r: real): (t: StrikeType)
    requires IsDraw(r)
    ensures t == Internal <==> r < 0.4
    ensures t == Air <==> 0.4 <= r < 0.6
    ensures t == GroundTree <==> 0.6 <= r < 0.8
    ensures t == GroundHouse <==> 0.8 <= r
  {
    StrikeTable[TableIndex(r)]
  }

  /** The label shown for a category (the `labels` record). */
  function Label(t: StrikeType): (l: string)
    ensures |l| > 0
  {
    match t
    case Internal => "Urladdning inuti molnet"
    case Air => "Lufturladdning"
    case GroundTree => "Blixt mot marken (träd)"
    case GroundHouse => "Blixt mot marken (hus)"
  }

  /** Different categories carry different labels, so the label identifies the strike. */
  lemma LabelsDistinct(t: StrikeType, u: StrikeType)
    ensures Label(t) == Label(u) <==> t == u
  {
    if t != u {
      assert Label(t)[0] != Label(u)[0] || Label(t)[1] != Label(u)[1] || Label(t)[17..] != Label(u)[17..];
    }
  }

  /** The endpoints of a strike inside the cloud. */
  datatype InternalPath = InternalPath(startX: real, startY: real, endX: real, endY: real)

  /** The path shown before the first internal strike. */
  const InitialPath: InternalPath := InternalPath(350.0, 260.0, 450.0, 130.0)

  /**
   * Starts in the lower (negative) part of the cloud and ends in the upper
   * (positive) part: x in [250, 550), start y in [230, 280), end y in [120, 200).
   */
  predicate InCloud(p: InternalPath) {
    && 250.0 <= p.startX < 550.0 && 230.0 <= p.startY < 280.0
    && 250.0 <= p.endX < 550.0 && 120.0 <= p.endY < 200.0
  }

  /** The four draws taken, in this order, for a new internal path. */
  datatype PathDraws = PathDraws(startX: real, startY: real, endX: real, endY: real)

  predicate ValidPathDraws(d: PathDraws) {
    IsDraw(d.startX) && IsDraw(d.startY) && IsDraw(d.endX) && IsDraw(d.endY)
  }

  /** The randomized internal path; it always rises (screen y grows downward). */
  function DrawPath(d: PathDraws): (p: InternalPath)
    requires ValidPathDraws(d)
    ensures InCloud(p)
    ensures p.endY < p.startY
    ensures (p.startX - 250.0) / 300.0 == d.startX && (p.startY - 230.0) / 50.0 == d.startY
    ensures (p.endX - 250.0) / 300.0 == d.endX && (p.endY - 120.0) / 80.0 == d.endY
  {
    InternalPath(250.0 + d.startX * 300.0, 230.0 + d.startY * 50.0,
                 250.0 + d.endX * 300.0, 120.0 + d.endY * 80.0)
  }

  lemma InitialPathInCloud()
    ensures InCloud(InitialPath)
  {
  }

  /** The component's state: its `step` prop, `strike`, `strikeLabel` and `internalPath`. */
  datatype Stage = Stage(step: int, strike: Option<StrikeType>, strikeLabel: string, path: InternalPath)

  /** The state right after mounting (the effect clears what is already clear). */
  function Mount(step: int): (r: Stage)
    ensures r.step == step && r.strike.None? && r.strikeLabel == "" && InCloud(r.path)
  {
    Stage(step, None, "", InitialPath)
  }

  /** `triggerStrike`: pick a category, maybe a new path, show it and its label. */
  function Trigger(st: Stage, pick: real, draws: PathDraws): (r: Stage)
    requires IsDraw(pick) && ValidPathDraws(draws)
    ensures r.step == st.step
    ensures r.strike == Some(SelectStrike(pick)) && r.strikeLabel == Label(SelectStrike(pick))
    ensures SelectStrike(pick) != Internal ==> r.path == st.path
    ensures SelectStrike(pick) == Internal ==> r.path == DrawPath(draws)
  {
    var selected := SelectStrike(pick);
    var path := if selected == Internal then DrawPath(draws) else st.path;
    Stage(st.step, Some(selected), Label(selected), path)
  }

  datatype StageEvent =
    | StepChange(step: int)                 // a new `step` prop (the effect re-runs)
    | Tick(pick: real, draws: PathDraws)    // the 2500 ms interval fires
    | FlashOver                             // the 150 ms timeout after a trigger fires

  predicate ValidEvent(e: StageEvent) {
    e.Tick? ==> IsDraw(e.pick) && ValidPathDraws(e.draws)
  }

  function Step(st: Stage, e: StageEvent): (r: Stage)
    requires ValidEvent(e)
    ensures r.path == st.path || (e.Tick? && r.path == DrawPath(e.draws))
    ensures e.FlashOver? ==> r.strike == None && r.strikeLabel == st.strikeLabel
    ensures e.StepChange? && e.step != st.step && e.step != Navigation.LastStep ==> r.strike == None && r.strikeLabel == ""
    ensures e.Tick? && st.step != Navigation.LastStep ==> r == st
    ensures e.StepChange? ==> r.step == e.step
    ensures e.StepChange? && (e.step == st.step || e.step == Navigation.LastStep) ==>
      r.strike == st.strike && r.strikeLabel == st.strikeLabel
    ensures e.Tick? && st.step == Navigation.LastStep ==> r == Trigger(st, e.pick, e.draws)
    ensures !e.StepChange? ==> r.step == st.step
  {
    match e
    case StepChange(s) =>
      if s == st.step then st
      else if s == Navigation.LastStep then st.(step := s)
      else Stage(s, None, "", st.path)
    case Tick(pick, draws) =>
      if st.step == Navigation.LastStep then Trigger(st, pick, draws) else st
    case FlashOver => st.(strike := None)
  }

  /**
   * What the stage keeps true: a strike or a label is only ever shown on the
   * final step, the label shown with a strike is that strike's, and the
   * internal path stays inside the cloud, rising.
   */
  predicate Consistent(st: Stage) {
    && (st.strike.Some? ==> st.step == Navigation.LastStep && st.strikeLabel == Label(st.strike.value))
    && (st.strikeLabel != "" ==> st.step == Navigation.LastStep)
    && InCloud(st.path)
    && st.path.endY < st.path.startY
  }

  lemma StepPreservesConsistent(st: Stage, e: StageEvent)
    requires ValidEvent(e) && Consistent(st)
    ensures Consistent(Step(st, e))
  {
  }

  function Run(st: Stage, events: seq<StageEvent>): Stage
    requires forall i :: 0 <= i < |events| ==> ValidEvent(events[i])
    decreases |events|
  {
    if events == [] then st else Run(Step(st, events[0]), events[1..])
  }

  /** From mounting, on every sequence of steps and timer firings the stage stays consistent. */
  lemma {:induction false} RunConsistent(st: Stage, events: seq<StageEvent>)
    requires forall i :: 0 <= i < |events| ==> ValidEvent(events[i])
    requires Consistent(st)
    ensures Consistent(Run(st, events))
    decreases |events|
  {
    if events != [] {
      StepPreservesConsistent(st, events[0]);
      RunConsistent(Step(st, events[0]), events[1..]);
    }
  }

  lemma MountConsistent(step: int)
    ensures Consistent(Mount(step))
  {
  }

  /** A trigger followed by its timeout leaves no strike shown, whatever the category. */
  lemma TriggerThenFlashOver(st: Stage, pick: real, draws: PathDraws)
    requires IsDraw(pick) && ValidPathDraws(draws)
    requires st.step == Navigation.LastStep
    ensures var r := Step(Step(st, Tick(pick, draws)), FlashOver);
      r.strike == None && r.strikeLabel == Label(SelectStrike(pick)) && r.step == st.step
  {
  }

  /** The `step` prop handed to the particle system: steps 0 and 1 both map to phase 0. */
  function ParticlePhase(step: int): (phase: int)
    ensures 0 <= step ==> phase == if step == 0 then 0 else step - 1
  {
    if step == 0 then 0 else if step == 1 then 0 else step - 1
  }

  /**
   * On the five steps the phase is max(0, step - 1): the particles rise
   * (phase 1) on step 2 only, and separate by charge (phase 2 and above)
   * on steps 3 and 4.
   */
  lemma PhaseOfSteps(step: int)
    requires Navigation.ValidStep(step)
    ensures 0 <= ParticlePhase(step) <= 3
    ensures ParticlePhase(step) == if step <= 1 then 0 else step - 1
    ensures ParticlePhase(step) == 1 <==> step == 2
    ensures ParticlePhase(step) >= 2 <==> step >= 3
  {
  }
}
